=== FILE: README.md ===
# On-demand lexer of the Jasper toolchain, in Dafny

This project models the character-level scanner of the Jasper language
(`src/lexer.cpp`). The lexer's state is the source text, the current source
index, the current line and column, the growing token vector and the
parser's token cursor. `consume_token` recognises one lexeme per call:

- operators and punctuation, by maximal munch over one or two characters;
- the keywords `fn`, `for`, `if` and `return`, each only when no identifier
  character follows it;
- identifiers, numbers (digits, at most one `.`, digits) and double-quoted
  strings without escape sequences;
- any other character, which is skipped and only moves the line and column.

`advance` moves the token cursor and pulls tokens lazily; `token_at` pulls
tokens up to the one requested and returns the END sentinel once the source
is exhausted.

The model is functional. `Lexing.Lexer` is an immutable record, and every
C++ member function that changes the lexer is a pure function from one
state to the next. The modules are:

- `Wrappers` (`wrappers.dfy`): `Option` and `Result`.
- `Chars` (`chars.dfy`): ASCII character classes, `CharAt` and the
  maximal-run scanner `RunEnd` used by the identifier and number loops.
- `Tokens` (`tokens.dfy`): token kinds, tokens and the END sentinel.
- `Operators` (`operators.dfy`): the operator `switch` and an independent
  table of operator spellings.
- `Lexing` (`lexer.dfy`): the state and its transitions.
- `LexerFacts` (`facts.dfy`): what each step produces, checked against
  independent descriptions of identifiers, numbers, strings and keywords,
  and how lazy pulling behaves.

The helpers declared in `lexer.hpp` are not part of this model. Their
meaning is taken as follows:

- `current_char()` is `char_at(m_source_index)`;
- `next_char()` is `char_at(m_source_index + 1)`;
- `peek_char(k)` is `char_at(m_source_index + k)`;
- `done()` is `m_source_index >= m_source.size()`.

The Token field order (kind, text, start line, start column, end line, end
column) follows the initialiser in `push_token`. `isalpha` and `isdigit` are
modelled as their ASCII meaning.

The source handles two errors with `assert`. An unterminated string literal
(`assert(0)`) becomes the error `UnterminatedString`. The condition of
`regress` (`m_token_index > 0`) becomes a precondition. `token_at` with a
negative index reaches `m_tokens.at(index)`, which throws, so the model
returns `IndexOutOfRange`.

Operator and keyword tokens carry empty text, because `push_token` stores
`{}` as the text. The generic KEYWORD does not say which of `for`, `if` or
`return` it was.

The string loop is modelled as written, and it has two quirks. It updates
line and column after stepping onto a character, so a newline directly
after the opening quote does not advance the line. Also, within a string
the character after a newline sits at column 1, not at column 0 as
elsewhere. `LexerFacts.ScanStringPositions` states the resulting
bookkeeping, and `LexerFacts.StringLeadingNewlineUncounted` shows the first
quirk on the literal `"\n"`.

## Model

| member | source | states |
|---|---|---|
| Chars.CharAt | src/lexer.cpp:16-18 | reading inside the source yields that character; any index at or past the end reads as NUL |
| Chars.AlphaListed | src/lexer.cpp:8-14 | `isalpha` holds of exactly the 26 listed lower-case and 26 listed upper-case letters |
| Chars.DigitListed | src/lexer.cpp:12-14 | `isdigit` holds of exactly the ten listed decimal digits |
| Chars.IdentifierStartListed | src/lexer.cpp:8-10 | an identifier starts with a listed letter or `_`, and never with a digit |
| Chars.IdentifierCharListed | src/lexer.cpp:12-14 | an identifier continues with a start character or a listed digit and nothing else; NUL ends every identifier |
| Chars.RunEnd | src/lexer.cpp:293-296 | the scanning loop stops at the end of the maximal run: every character before the stop satisfies the class, and the character at the stop, if any, does not |
| Tokens.Eof | src/lexer.cpp:367-375 | the sentinel is an END token with text "(EOF)" and all four positions -1 |
| Operators.OperatorAt | src/lexer.cpp:34-196 | a recognised operator is one or two characters wide, never starts at NUL or `"`, and a two-character operator is its first character doubled or followed by `=` |
| Operators.OperatorMaximalMunch | src/lexer.cpp:34-196 | the operator switch picks exactly the longest listed operator spelling (two characters before one); `^^` is not listed, so `^` before `^` is a lone XOR |
| Lexing.PushToken | src/lexer.cpp:20-28 | appends exactly one token of the given kind with empty text, spanning [column, column + width) on the current line; index and column advance by the width; line, source and earlier tokens unchanged |
| Lexing.ScanString | src/lexer.cpp:207-217 | the string loop stops at the first `"` at or after its start, or at the end of the source, and no `"` lies before the stop |
| Lexing.ConsumeString | src/lexer.cpp:197-242 | fails exactly when no `"` follows the opening quote; otherwise appends one token and stays inside the source |
| Lexing.KeywordAt | src/lexer.cpp:248-287 | a successful keyword test lies wholly inside the source and is followed by a character that cannot continue an identifier |
| Lexing.ConsumeIdentifier | src/lexer.cpp:289-307 | appends one token, moves strictly forward and stays inside the source |
| Lexing.ConsumeNumber | src/lexer.cpp:309-339 | appends one token, moves strictly forward and stays inside the source |
| Lexing.Skip | src/lexer.cpp:341-349 | no token; index advances by one; a newline moves to column 0 of the next line, any other character one column right |
| Lexing.ConsumeWordOrSkip | src/lexer.cpp:244-350 | the default branch adds at most one token, keeps earlier tokens, moves strictly forward and stays inside the source |
| Lexing.ConsumeToken | src/lexer.cpp:30-351 | fails exactly on an opening quote with no closing quote after it; otherwise moves the index strictly forward, adds at most one token, keeps earlier tokens and, from inside the source, stays inside it |
| Lexing.Fill | src/lexer.cpp:377-380 | the pulling loop keeps earlier tokens, ends with the requested token present or the source exhausted, never lexes past the requested token, and does nothing when the token already exists; it fails only with an unterminated string, so only when a `"` lies ahead |
| Lexing.TokenAt | src/lexer.cpp:377-387 | a negative index is out of range; a token already pulled is returned without lexing; otherwise the result is the recognised token at that index, or END with the source exhausted when no such token exists; it fails only on a negative index or with a `"` ahead |
| Lexing.Advance | src/lexer.cpp:353-360 | moves the cursor forward by one, keeps earlier tokens, and ends with the cursor's token present or the source exhausted; when that token already exists or the source is exhausted it only moves the cursor; it fails only with a `"` ahead |
| Lexing.Regress | src/lexer.cpp:362-365 | with the cursor past the first token, moves it back by one and changes nothing else |
| LexerFacts.ConsumeOperator | src/lexer.cpp:34-165 | at an operator character the step pushes the longest listed spelling's kind and width; the width is 2 exactly when the two-character spelling is listed |
| LexerFacts.KeywordIffWholeWord | src/lexer.cpp:248-287 | a keyword test succeeds exactly when the maximal identifier run at the index is `fn`, `for`, `if` or `return`; `fn` gives KEYWORD_FN and the others KEYWORD |
| LexerFacts.KeywordStep | src/lexer.cpp:248-287 | a successful keyword test consumes exactly the whole identifier run and emits the keyword token with empty text |
| LexerFacts.IdentifierStep | src/lexer.cpp:289-307 | when no keyword test succeeds, the maximal identifier run becomes an IDENTIFIER whose text is that run and whose column span equals its length |
| LexerFacts.ConsumeWord | src/lexer.cpp:246-307 | at a letter or `_` the step emits one token for the maximal identifier run: a keyword token when the run is a keyword, an IDENTIFIER with that text otherwise, spanning the run's columns on one line |
| LexerFacts.NumberShape | src/lexer.cpp:309-339 | the number text is digits with at most one `.`, is followed by no digit (and by no `.` when it has none), and its column span equals its length and the index advance |
| LexerFacts.ConsumeNumberStep | src/lexer.cpp:309-339 | at a digit the step emits exactly one NUMBER token of that shape |
| LexerFacts.ScanStringPositions | src/lexer.cpp:207-217 | the string loop raises the line by the newlines after the first scanned character; with none of them it raises the column by the characters scanned, and otherwise leaves the column at one more than the number of characters between the last of them and the stop index |
| LexerFacts.StringShape | src/lexer.cpp:197-242 | a terminated string's token text is exactly the characters between the quotes and contains no `"`; the index moves one past the closing quote; the token starts one column after the opening quote; the end line follows the loop's newline count; the end column is the opening quote's column plus one plus the text length, or, after a newline, one more than the number of text characters following the last one; the column ends one past the token |
| LexerFacts.ConsumeStringStep | src/lexer.cpp:197-242 | at an opening quote with a closing quote after it, the step emits exactly that STRING token, with every position as `StringShape` states |
| LexerFacts.StringEndColumnPlain | src/lexer.cpp:197-242 | the literal `"ab"` opened at column 0 gives a STRING token ending at column 3: the quote's column, plus one, plus the two characters |
| LexerFacts.StringEndColumnAfterNewline | src/lexer.cpp:197-242 | the literal `"a\nb"` opened at column 0 gives a STRING token ending at column 2: one more than the single character after the newline |
| LexerFacts.StringLeadingNewlineUncounted | src/lexer.cpp:208-217 | for the literal `"\n"` the token text is the newline, yet the line does not advance |
| LexerFacts.ConsumeSkipped | src/lexer.cpp:341-349 | a character that starts no lexeme produces no token and advances the index by exactly one, with newline line/column handling |
| LexerFacts.TokenIffLexemeStart | src/lexer.cpp:30-351 | a successful step appends a token if and only if the current character is a quote, an operator character, a letter, `_` or a digit |
| LexerFacts.FillInStages | src/lexer.cpp:377-380 | pulling up to token i and then up to token j >= i equals pulling up to j directly |
| LexerFacts.TokenIndependentOfLookahead | src/lexer.cpp:377-387 | the token at i is the same whether requested first or after lexing ahead to j >= i, and then no further lexing occurs |
| LexerFacts.TokenAtStable | src/lexer.cpp:377-387 | repeating a token request on the resulting state returns the same token and state |
| LexerFacts.RegressUndoesAdvance | src/lexer.cpp:353-365 | regress after advance restores the token cursor and keeps every token pulled |
| LexerFacts.AdvanceThenCurrentToken | src/lexer.cpp:353-387 | after advance, the token at the cursor is available without lexing further: the recognised token, or END once exhausted |

## Left out

- Integer width: `int` indices, lines and columns are unbounded here; overflow on sources of more than 2^31 characters is not modelled.
- C library locale behaviour of `isalpha` and `isdigit`: modelled as ASCII only.
- `<iostream>`: `lexer.cpp` includes it but writes no output, so there is nothing to model.
- Builds with `NDEBUG`: they drop both `assert`s. There an unterminated string becomes a STRING token running to the end of the source, and `regress` at cursor 0 moves the cursor to -1. The model follows the checked build: `UnterminatedString` and a precondition on `Regress`.
- The static lifetime of the `eof()` token: the model returns the sentinel as a value.
- Construction of the lexer and its initial line, column and token cursor: `lexer.hpp` is not part of this model, so every property holds for an arbitrary state.
- The commented-out `^^` (LOGIC_XOR) case: it is not in the code, so it is not modelled.
- src/execute.cpp: the process driver that sequences parser, capture analysis, evaluator and collector lies outside this lexer model.
- src/compile_time_environment.hpp, src/interpreter/value.hpp, src/typed_ast_allocator.hpp: scope resolution, type inference, runtime values and the node allocator lie outside this lexer model.
- Bytes: the program's source is a `std::string` of bytes, and `char_at`, the columns and the character classes all work byte by byte. Each `char` of the model's `source` stands for one such byte; a multi-byte UTF-8 character is several model characters, each skipped and counted as its own column. A byte of 128 or more is in no class, as for a negative `char` under the "C" locale; the model does not restrict `source` to values below 256.
- References: `token_at` and `eof()` return references, and a later `push_back` on the token vector may invalidate a reference into it. The model returns the token by value, so it says nothing about such dangling references.

=== FILE: chars.dfy ===
/**
 * Character classes and character access used by the lexer.
 * The C library's `isalpha` and `isdigit` are modelled as their ASCII
 * ("C" locale) meaning.
 */
module Chars {

  /** The character `char_at` yields past the end of the source. */
  const NUL: char := '\0'

  /** The lower-case letters of the "C" locale, listed. */
  const LowerLetters := "abcdefghijklmnopqrstuvwxyz"

  /** The upper-case letters of the "C" locale, listed. */
  const UpperLetters := "ABCDEFGHIJKLMNOPQRSTUVWXYZ"

  /** The decimal digits, listed. */
  const DecimalDigits := "0123456789"

  /** ASCII `isalpha`. */
  predicate IsAlpha(c: char) {
    ('a' <= c <= 'z') || ('A' <= c <= 'Z')
  }

  /** ASCII `isdigit`. */
  predicate IsDigit(c: char) {
    '0' <= c <= '9'
  }

  /** A character that may begin an identifier: a letter or `_`. */
  predicate IsIdentifierStartChar(c: char) {
    IsAlpha(c) || c == '_'
  }

  /** A character that may continue an identifier: a letter, `_` or a digit. */
  predicate IsIdentifierChar(c: char) {
    IsAlpha(c) || c == '_' || IsDigit(c)
  }

  /** The letters are exactly the listed ones. */
  lemma AlphaListed(c: char)
    ensures IsAlpha(c) <==> c in LowerLetters || c in UpperLetters
  {
    if 'a' <= c <= 'z' {
      LowerListed(c);
    } else if 'A' <= c <= 'Z' {
      UpperListed(c);
    } else {
      NotListed(c);
    }
  }

  /** The digits are exactly the listed ones. */
  lemma DigitListed(c: char)
    ensures IsDigit(c) <==> c in DecimalDigits
  {
    if '0' <= c <= '9' {
      assert DecimalDigits[c as int - '0' as int] == c;
    }
  }

  /** Identifiers start with a listed letter or `_`, never with a digit. */
  lemma IdentifierStartListed(c: char)
    ensures IsIdentifierStartChar(c) <==> c in LowerLetters || c in UpperLetters || c == '_'
    ensures IsIdentifierStartChar(c) ==> c !in DecimalDigits
  {
    AlphaListed(c);
    DigitListed(c);
  }

  /** Identifiers continue with a start character or a listed digit, and nothing else. */
  lemma IdentifierCharListed(c: char)
    ensures IsIdentifierChar(c) <==> IsIdentifierStartChar(c) || c in DecimalDigits
    ensures !IsIdentifierChar(NUL)
  {
    DigitListed(c);
  }

  /** A lower-case letter is listed. */
  lemma LowerListed(c: char)
    requires 'a' <= c <= 'z'
    ensures c in LowerLetters
  {
    assert LowerLetters[c as int - 'a' as int] == c;
  }

  /** An upper-case letter is listed. */
  lemma UpperListed(c: char)
    requires 'A' <= c <= 'Z'
    ensures c in UpperLetters
  {
    assert UpperLetters[c as int - 'A' as int] == c;
  }

  /** A character outside both letter ranges is not listed. */
  lemma NotListed(c: char)
    requires !('a' <= c <= 'z') && !('A' <= c <= 'Z')
    ensures c !in LowerLetters && c !in UpperLetters
  {
    assert forall i :: 0 <= i < |LowerLetters| ==> 'a' <= LowerLetters[i] <= 'z';
    assert forall i :: 0 <= i < |UpperLetters| ==> 'A' <= UpperLetters[i] <= 'Z';
  }

  /**
   * Bounds-checked access to the source: any index at or beyond the end
   * reads as the NUL character.
   */
  function CharAt(source: string, index: nat): (c: char)
    ensures index < |source| ==> c == source[index]
    ensures index >= |source| ==> c == NUL
  {
    if index < |source| then source[index] else NUL
  }

  /**
   * The end of the maximal run of characters satisfying `p` that starts at
   * `start`: every character in [start, e) satisfies `p` and the character
   * at `e`, if any, does not.  This is where the lexer's scanning loops
   * leave the index: they step forward while the next character is in the
   * class, and the NUL read past the end of the source is in no class.
   */
  function RunEnd(source: string, start: nat, p: char -> bool): (e: nat)
    requires start <= |source|
    ensures start <= e <= |source|
    ensures forall k :: start <= k < e ==> p(source[k])
    ensures e == |source| || !p(source[e])
    decreases |source| - start
  {
    if start < |source| && p(source[start]) then RunEnd(source, start + 1, p) else start
  }
}

=== FILE: facts.dfy ===
/**
 * What one `ConsumeToken` step produces for each kind of lexeme, stated
 * against independent descriptions of the lexemes, and how the lazy
 * pulling of tokens behaves.
 */
module LexerFacts {
  import opened Wrappers
  import opened Chars
  import opened Tokens
  import opened Operators
  import opened Lexing

  /** The last token of a non-empty token sequence. */
  function Last(ts: seq<Token>): Token
    requires |ts| > 0
  {
    ts[|ts| - 1]
  }

  /** An identifier spelling: a letter or `_`, then letters, digits or `_`. */
  ghost predicate IsWord(w: string) {
    && |w| > 0
    && IsIdentifierStartChar(w[0])
    && forall k :: 0 <= k < |w| ==> IsIdentifierChar(w[k])
  }

  /** A number spelling: a digit, then digits with at most one `.` among them. */
  ghost predicate IsNumberText(w: string) {
    && |w| > 0
    && IsDigit(w[0])
    && (forall k :: 0 <= k < |w| ==> IsDigit(w[k]) || w[k] == '.')
    && (forall j, k :: 0 <= j < k < |w| && w[j] == '.' ==> w[k] != '.')
  }

  /** The keyword a whole word spells, with its token kind and width; None for any other word. */
  function KeywordOf(w: string): Option<Munch> {
    if w == "fn" then Some(Munch(KeywordFn, 2))
    else if w == "for" then Some(Munch(Keyword, 3))
    else if w == "if" then Some(Munch(Keyword, 2))
    else if w == "return" then Some(Munch(Keyword, 6))
    else None
  }

  /** Number of newline characters in `w`. */
  function NewlineCount(w: string): nat {
    if |w| == 0 then 0 else (if w[0] == '\n' then 1 else 0) + NewlineCount(w[1..])
  }

  // ---------------------------------------------------------------------
  // Operators

  /**
   * At an operator character the step emits exactly the longest listed
   * operator spelling: one token of that kind, the width of the spelling,
   * and the spelling lies inside the source.
   */
  lemma ConsumeOperator(s: Lexer, m: Munch)
    requires LongestLexeme(s.Current(), s.Next()) == Some(m)
    ensures ConsumeToken(s) == Ok(PushToken(s, m.kind, m.width))
    ensures m.width == 2 <==> (s.Current(), s.Next()) in TwoCharLexemes
    ensures m.width == 1 ==> s.Current() in OneCharLexemes
    ensures s.index + m.width <= |s.source|
  {
    var c, d := s.Current(), s.Next();
    assert OperatorAt(c, d) == Some(m) by {
      OperatorMaximalMunch(c, d);
    }
    assert s.index < |s.source| && (m.width == 2 ==> s.index + 1 < |s.source|);
  }

  // ---------------------------------------------------------------------
  // Keywords and identifiers

  /** The identifier run that starts at the current index ends at `e`. */
  ghost predicate WordEndsAt(s: Lexer, e: nat) {
    && s.index < e <= |s.source|
    && (forall k :: s.index <= k < e ==> IsIdentifierChar(s.source[k]))
    && (e == |s.source| || !IsIdentifierChar(s.source[e]))
  }

  /** At an identifier start character the identifier loop stops at the end of the run. */
  lemma WordRun(s: Lexer)
    requires s.index < |s.source| && IsIdentifierStartChar(s.source[s.index])
    ensures WordEndsAt(s, RunEnd(s.source, s.index + 1, IsIdentifierChar))
  {
  }

  /**
   * The run ending at `e` spells the identifier-character word `kw` exactly
   * when the characters of `kw` lie at the index and no identifier
   * character follows them: the shape of the lexer's keyword tests.
   */
  lemma SpellsAt(s: Lexer, e: nat, kw: string)
    requires WordEndsAt(s, e)
    requires forall k :: 0 <= k < |kw| ==> IsIdentifierChar(kw[k])
    ensures s.source[s.index..e] == kw <==>
      (forall k :: 0 <= k < |kw| ==> s.Peek(k) == kw[k]) && !IsIdentifierChar(s.Peek(|kw|))
  {
    var src, i := s.source, s.index;
    var w := src[i..e];
    assert forall k :: 0 <= k < |w| ==> w[k] == src[i + k];
    if w == kw {
      assert forall k :: 0 <= k < |kw| ==> s.Peek(k) == src[i + k];
      assert s.Peek(|kw|) == CharAt(src, e);
    }
    if (forall k :: 0 <= k < |kw| ==> s.Peek(k) == kw[k]) && !IsIdentifierChar(s.Peek(|kw|)) {
      forall j | i <= j < i + |kw|
        ensures j < |src| && src[j] == kw[j - i] && IsIdentifierChar(src[j])
      {
        assert s.Peek(j - i) == kw[j - i] && IsIdentifierChar(kw[j - i]);
        assert s.Peek(j - i) == CharAt(src, j);
      }
      assert e >= i + |kw|;
      assert i + |kw| < |src| ==> s.Peek(|kw|) == src[i + |kw|];
      assert e == i + |kw|;
      assert w == kw;
    }
  }

  /** The run ending at `e` is `fn` exactly when the `fn` test of the lexer succeeds. */
  lemma SpellsFn(s: Lexer, e: nat)
    requires WordEndsAt(s, e)
    ensures s.source[s.index..e] == "fn" <==>
      s.Peek(0) == 'f' && s.Peek(1) == 'n' && !IsIdentifierChar(s.Peek(2))
  {
    var kw := "fn";
    assert |kw| == 2 && kw[0] == 'f' && kw[1] == 'n';
    SpellsAt(s, e, kw);
  }

  /** The run ending at `e` is `for` exactly when the `for` test of the lexer succeeds. */
  lemma SpellsFor(s: Lexer, e: nat)
    requires WordEndsAt(s, e)
    ensures s.source[s.index..e] == "for" <==>
      s.Peek(0) == 'f' && s.Peek(1) == 'o' && s.Peek(2) == 'r' && !IsIdentifierChar(s.Peek(3))
  {
    var kw := "for";
    assert |kw| == 3 && kw[0] == 'f' && kw[1] == 'o' && kw[2] == 'r';
    SpellsAt(s, e, kw);
  }

  /** The run ending at `e` is `if` exactly when the `if` test of the lexer succeeds. */
  lemma SpellsIf(s: Lexer, e: nat)
    requires WordEndsAt(s, e)
    ensures s.source[s.index..e] == "if" <==>
      s.Peek(0) == 'i' && s.Peek(1) == 'f' && !IsIdentifierChar(s.Peek(2))
  {
    var kw := "if";
    assert |kw| == 2 && kw[0] == 'i' && kw[1] == 'f';
    SpellsAt(s, e, kw);
  }

  /** The run ending at `e` is `return` exactly when the `return` test of the lexer succeeds. */
  lemma SpellsReturn(s: Lexer, e: nat)
    requires WordEndsAt(s, e)
    ensures s.source[s.index..e] == "return" <==>
      && s.Peek(0) == 'r' && s.Peek(1) == 'e' && s.Peek(2) == 't' && s.Peek(3) == 'u'
      && s.Peek(4) == 'r' && s.Peek(5) == 'n' && !IsIdentifierChar(s.Peek(6))
  {
    var kw := "return";
    assert |kw| == 6 && kw[0] == 'r' && kw[1] == 'e' && kw[2] == 't';
    assert kw[3] == 'u' && kw[4] == 'r' && kw[5] == 'n';
    SpellsAt(s, e, kw);
  }

  /**
   * The keyword tests succeed exactly when the maximal identifier run at
   * the current index spells a keyword: `fnord` and `iffy` are not keywords.
   */
  lemma KeywordIffWholeWord(s: Lexer)
    requires s.index < |s.source| && IsIdentifierStartChar(s.source[s.index])
    ensures KeywordAt(s) == KeywordOf(s.source[s.index..RunEnd(s.source, s.index + 1, IsIdentifierChar)])
  {
    var e := RunEnd(s.source, s.index + 1, IsIdentifierChar);
    WordRun(s);
    SpellsFn(s, e);
    SpellsFor(s, e);
    SpellsIf(s, e);
    SpellsReturn(s, e);
  }

  /** A letter, `_` or digit starts neither a string nor an operator, so the step takes the default branch. */
  lemma DefaultBranch(s: Lexer)
    requires IsIdentifierChar(s.Current())
    ensures ConsumeToken(s) == Ok(ConsumeWordOrSkip(s))
  {
    NoOperatorAtWordChar(s.Current(), s.Next());
    assert s.Current() != '"';
  }

  /** No operator starts with a letter, `_` or digit. */
  lemma NoOperatorAtWordChar(c: char, d: char)
    requires IsIdentifierChar(c)
    ensures OperatorAt(c, d) == None
  {
  }

  /**
   * The result of one step at an identifier start character: the maximal
   * identifier run `w` from the current index is consumed and one token is
   * appended covering columns [column, column + |w|) of the current line; it
   * is a keyword token with empty text when `w` is a keyword, otherwise an
   * IDENTIFIER whose text is `w`.
   */
  ghost predicate WordStep(s: Lexer, r: Lexer) {
    && s.index < r.index <= |s.source|
    && var w := s.source[s.index..r.index];
    && IsWord(w)
    && (r.index == |s.source| || !IsIdentifierChar(s.source[r.index]))
    && r.source == s.source && r.tokenIndex == s.tokenIndex
    && |r.tokens| == |s.tokens| + 1 && r.tokens[..|s.tokens|] == s.tokens
    && Last(r.tokens).lineStart == Last(r.tokens).lineEnd == r.line == s.line
    && Last(r.tokens).colStart == s.column
    && Last(r.tokens).colEnd == r.column == s.column + |w|
    && (KeywordOf(w).Some? ==> Last(r.tokens).kind == KeywordOf(w).value.kind && Last(r.tokens).text == "")
    && (KeywordOf(w).None? ==> Last(r.tokens).kind == Identifier && Last(r.tokens).text == w)
  }

  /** A keyword's token width is the length of its spelling. */
  lemma KeywordWidth(w: string)
    ensures KeywordOf(w).Some? ==> KeywordOf(w).value.width == |w|
  {
  }

  /**
   * Appending a token for the identifier run that ends at `e`, with the
   * kind and text the run's spelling calls for, is a step as `WordStep`
   * describes.
   */
  lemma WordOutcome(s: Lexer, e: nat, t: Token)
    requires WordEndsAt(s, e) && IsIdentifierStartChar(s.source[s.index])
    requires t.lineStart == t.lineEnd == s.line
    requires t.colStart == s.column && t.colEnd == s.column + (e - s.index)
    requires var w := s.source[s.index..e];
      && (KeywordOf(w).Some? ==> t.kind == KeywordOf(w).value.kind && t.text == "")
      && (KeywordOf(w).None? ==> t.kind == Identifier && t.text == w)
    ensures WordStep(s, s.(tokens := s.tokens + [t], index := e, column := t.colEnd))
  {
    var r := s.(tokens := s.tokens + [t], index := e, column := t.colEnd);
    var w := s.source[s.index..e];
    assert Last(r.tokens) == t;
    assert r.tokens[..|s.tokens|] == s.tokens;
    assert forall k :: 0 <= k < |w| ==> w[k] == s.source[s.index + k];
    assert IsWord(w);
  }

  /** A keyword test that succeeds consumes exactly the keyword, which is the whole identifier run. */
  lemma KeywordStep(s: Lexer, m: Munch)
    requires s.index < |s.source| && IsIdentifierStartChar(s.source[s.index])
    requires KeywordAt(s) == Some(m)
    ensures WordStep(s, ConsumeWordOrSkip(s))
  {
    var src, i := s.source, s.index;
    var e := RunEnd(src, i + 1, IsIdentifierChar);
    var w := src[i..e];
    WordRun(s);
    assert KeywordOf(w) == Some(m) && m.width == e - i by {
      KeywordIffWholeWord(s);
      KeywordWidth(w);
    }
    var t := Token(m.kind, "", s.line, s.column, s.line, s.column + m.width);
    assert ConsumeWordOrSkip(s) == PushToken(s, m.kind, m.width);
    assert PushToken(s, m.kind, m.width) == s.(tokens := s.tokens + [t], index := e, column := t.colEnd);
    WordOutcome(s, e, t);
  }

  /** When no keyword test succeeds the whole identifier run becomes an IDENTIFIER token. */
  lemma IdentifierStep(s: Lexer)
    requires s.index < |s.source| && IsIdentifierStartChar(s.source[s.index])
    requires KeywordAt(s) == None
    ensures WordStep(s, ConsumeWordOrSkip(s))
  {
    var src, i := s.source, s.index;
    var e := RunEnd(src, i + 1, IsIdentifierChar);
    var w := src[i..e];
    WordRun(s);
    KeywordIffWholeWord(s);
    assert KeywordOf(w) == None;
    var t := Token(Identifier, w, s.line, s.column, s.line, s.column + |w|);
    assert ConsumeWordOrSkip(s) == ConsumeIdentifier(s);
    assert ConsumeIdentifier(s) == s.(tokens := s.tokens + [t], index := e, column := t.colEnd);
    WordOutcome(s, e, t);
  }

  /**
   * At an identifier start character the step emits one token for the
   * maximal identifier run that starts there, as `WordStep` describes:
   * `fnord` and `iffy` are identifiers, `fn` and `if` followed by a
   * non-identifier character are keywords.
   */
  lemma ConsumeWord(s: Lexer)
    requires s.index < |s.source| && IsIdentifierStartChar(s.source[s.index])
    ensures ConsumeToken(s).Ok? && WordStep(s, ConsumeToken(s).value)
  {
    DefaultBranch(s);
    match KeywordAt(s)
    case Some(m) => KeywordStep(s, m);
    case None => IdentifierStep(s);
  }
  // ---------------------------------------------------------------------
  // Numbers

  /**
   * The result of one step at a digit: the number spelling `w` (digits, at
   * most one `.`, digits) is consumed, no digit follows it and no `.`
   * follows a spelling without one; one NUMBER token with text `w` is
   * appended covering columns [column, column + |w|) of the current line.
   */
  ghost predicate NumberStep(s: Lexer, r: Lexer) {
    && s.index < r.index <= |s.source|
    && var w := s.source[s.index..r.index];
    && IsNumberText(w)
    && !IsDigit(CharAt(s.source, r.index))
    && ('.' !in w ==> CharAt(s.source, r.index) != '.')
    && r.source == s.source && r.tokenIndex == s.tokenIndex
    && |r.tokens| == |s.tokens| + 1 && r.tokens[..|s.tokens|] == s.tokens
    && Last(r.tokens).kind == Number && Last(r.tokens).text == w
    && Last(r.tokens).lineStart == Last(r.tokens).lineEnd == r.line == s.line
    && Last(r.tokens).colStart == s.column
    && Last(r.tokens).colEnd == r.column == s.column + |w|
  }

  /** A slice of digits, except possibly one `.` at position `p`, is a number spelling. */
  lemma DigitsWithOneDot(source: string, i: nat, p: nat, e: nat)
    requires i < p && i < e <= |source|
    requires forall k :: i <= k < e && k != p ==> IsDigit(source[k])
    requires p < e ==> IsDigit(source[p]) || source[p] == '.'
    ensures IsNumberText(source[i..e])
    ensures '.' in source[i..e] ==> p < e && source[p] == '.'
  {
    var w := source[i..e];
    assert forall k :: 0 <= k < |w| ==> w[k] == source[i + k];
    assert forall k :: 0 <= k < |w| && w[k] == '.' ==> k == p - i;
  }

  /**
   * Appending a NUMBER token for the digits from the index to `e`, with at
   * most a `.` at `p` (the end of the integral part), is a step as
   * `NumberStep` describes when no digit follows and, without a `.`, no `.`
   * follows either.
   */
  lemma NumberOutcome(s: Lexer, p: nat, e: nat)
    requires s.index < p <= e <= |s.source|
    requires forall k :: s.index <= k < e && k != p ==> IsDigit(s.source[k])
    requires p < e ==> s.source[p] == '.'
    requires !IsDigit(CharAt(s.source, e)) && (p == e ==> CharAt(s.source, e) != '.')
    ensures var w := s.source[s.index..e];
      var t := Token(Number, w, s.line, s.column, s.line, s.column + |w|);
      NumberStep(s, s.(tokens := s.tokens + [t], index := e, column := s.column + |w|))
  {
    var w := s.source[s.index..e];
    var t := Token(Number, w, s.line, s.column, s.line, s.column + |w|);
    var r := s.(tokens := s.tokens + [t], index := e, column := s.column + |w|);
    assert Last(r.tokens) == t && r.tokens[..|s.tokens|] == s.tokens;
    DigitsWithOneDot(s.source, s.index, p, e);
  }

  /** The number loops stop at a maximal spelling: digits, with at most a `.` ending the integral part. */
  lemma NumberEndsShape(s: Lexer)
    requires s.index < |s.source| && IsDigit(s.source[s.index])
    ensures var (p, e) := NumberEnds(s);
      && (forall k :: s.index <= k < e && k != p ==> IsDigit(s.source[k]))
      && (p < e ==> s.source[p] == '.')
      && !IsDigit(CharAt(s.source, e)) && (p == e ==> CharAt(s.source, e) != '.')
  {
    var (p, e) := NumberEnds(s);
    if CharAt(s.source, p) != '.' {
      assert e == p;
    }
  }

  /** The number scanner consumes a maximal number spelling and moves the column with the index. */
  lemma NumberShape(s: Lexer)
    requires s.index < |s.source| && IsDigit(s.source[s.index])
    ensures NumberStep(s, ConsumeNumber(s))
  {
    NumberEndsShape(s);
    NumberOutcome(s, NumberEnds(s).0, NumberEnds(s).1);
  }

  /** At a digit the step consumes a number, as `NumberStep` describes. */
  lemma ConsumeNumberStep(s: Lexer)
    requires s.index < |s.source| && IsDigit(s.source[s.index])
    ensures ConsumeToken(s).Ok? && NumberStep(s, ConsumeToken(s).value)
  {
    DefaultBranch(s);
    assert KeywordAt(s) == None;
    assert ConsumeWordOrSkip(s) == ConsumeNumber(s);
    NumberShape(s);
  }
  // ---------------------------------------------------------------------
  // Strings

  /**
   * Line and column bookkeeping of the string loop: the line grows by the
   * newlines strictly after the first scanned character (the loop looks at
   * a character only after stepping onto it).  Without such newlines the
   * column grows by the number of characters scanned; otherwise it is the
   * distance from the last of them to the stop index, one more than the
   * characters strictly between the two, since the newline set column 0.
   */
  lemma ScanStringPositions(source: string, i: nat, line: int, column: int)
    requires i <= |source|
    ensures var (e, l, c) := ScanString(source, i, line, column);
      && l == line + (if i < e then NewlineCount(source[i + 1..e]) else 0)
      && ((forall k :: i < k < e ==> source[k] != '\n') ==> c == column + (e - i))
      && (forall p :: i < p < e && source[p] == '\n' && (forall k :: p < k < e ==> source[k] != '\n') ==> c == e - p)
  {
    ScanStringLine(source, i, line, column);
    ScanStringColumn(source, i, line, column);
    ScanStringLastColumn(source, i, line, column);
  }

  /** The string loop's line grows by the newlines after the first scanned character. */
  lemma {:induction false} ScanStringLine(source: string, i: nat, line: int, column: int)
    requires i <= |source|
    ensures var r := ScanString(source, i, line, column);
      r.1 == line + (if i < r.0 then NewlineCount(source[i + 1..r.0]) else 0)
    decreases |source| - i
  {
    if i < |source| && source[i] != '"' {
      var newline := CharAt(source, i + 1) == '\n';
      var l1 := if newline then line + 1 else line;
      var c1 := if newline then 0 else column + 1;
      ScanStringLine(source, i + 1, l1, c1);
      var e := ScanString(source, i + 1, l1, c1).0;
      if i + 1 < e {
        assert source[i + 1..e][1..] == source[i + 2..e];
        assert source[i + 1..e][0] == source[i + 1];
      }
    }
  }

  /** Without newlines after the first scanned character the loop's column grows by the characters scanned. */
  lemma {:induction false} ScanStringColumn(source: string, i: nat, line: int, column: int)
    requires i <= |source|
    ensures var r := ScanString(source, i, line, column);
      (forall k :: i < k < r.0 ==> source[k] != '\n') ==> r.2 == column + (r.0 - i)
    decreases |source| - i
  {
    if i < |source| && source[i] != '"' {
      var newline := CharAt(source, i + 1) == '\n';
      var l1 := if newline then line + 1 else line;
      var c1 := if newline then 0 else column + 1;
      ScanStringColumn(source, i + 1, l1, c1);
    }
  }

  /** After the last newline past the first scanned character, the loop's column counts the characters that follow it. */
  lemma {:induction false} ScanStringLastColumn(source: string, i: nat, line: int, column: int)
    requires i <= |source|
    ensures var r := ScanString(source, i, line, column);
      forall p :: i < p < r.0 && source[p] == '\n' && (forall k :: p < k < r.0 ==> source[k] != '\n') ==> r.2 == r.0 - p
    decreases |source| - i
  {
    if i < |source| && source[i] != '"' {
      var newline := CharAt(source, i + 1) == '\n';
      var l1 := if newline then line + 1 else line;
      var c1 := if newline then 0 else column + 1;
      ScanStringLastColumn(source, i + 1, l1, c1);
      if newline {
        ScanStringColumn(source, i + 1, l1, c1);
      }
    }
  }

  /**
   * The text and extent of one step at an opening quote: the token's text
   * is every character up to the next `"`, which the step also consumes.
   */
  ghost predicate StringConsumed(s: Lexer, r: Lexer) {
    && s.index + 2 <= r.index <= |s.source|
    && var text := s.source[s.index + 1..r.index - 1];
    && '"' !in text
    && s.source[r.index - 1] == '"'
    && r.source == s.source && r.tokenIndex == s.tokenIndex
    && |r.tokens| == |s.tokens| + 1 && r.tokens[..|s.tokens|] == s.tokens
    && Last(r.tokens).kind == String && Last(r.tokens).text == text
  }

  /**
   * The positions of one step at an opening quote: the token starts one
   * column after the quote and ends on the line reached by the string loop,
   * which counts the newlines after the first character of the text; the
   * token ends at the column reached by the loop, which is the quote's column
   * plus one plus the length of the text when none of those newlines occurs,
   * and otherwise one more than the number of text characters after the last
   * of them; the column moves one past the token's end.
   */
  ghost predicate StringPlaced(s: Lexer, r: Lexer) {
    && s.index + 2 <= r.index <= |s.source| && |r.tokens| > 0
    && var text := s.source[s.index + 1..r.index - 1];
    && Last(r.tokens).lineStart == s.line && Last(r.tokens).colStart == s.column + 1
    && Last(r.tokens).lineEnd == r.line
    && r.line == s.line + (if |text| == 0 then 0 else NewlineCount(text[1..]))
    && r.column == Last(r.tokens).colEnd + 1
    && ((forall k :: 0 < k < |text| ==> text[k] != '\n') ==> Last(r.tokens).colEnd == s.column + 1 + |text|)
    && (forall q :: LastNewlineAt(text, q) ==> Last(r.tokens).colEnd == |text| - q)
  }

  /** `q` is the last newline of `text` and is not its first character. */
  ghost predicate LastNewlineAt(text: string, q: int) {
    && 0 < q < |text| && text[q] == '\n'
    && (forall k :: q < k < |text| ==> text[k] != '\n')
  }

  /** One step at an opening quote, as `StringConsumed` and `StringPlaced` describe. */
  ghost predicate StringStep(s: Lexer, r: Lexer) {
    StringConsumed(s, r) && StringPlaced(s, r)
  }

  /** The state a string step yields when the loop stops at `sc`. */
  function StringOutcome(s: Lexer, sc: (nat, int, int)): Lexer
    requires s.index + 1 <= sc.0 <= |s.source|
  {
    s.(tokens := s.tokens + [Token(String, s.source[s.index + 1..sc.0], s.line, s.column + 1, sc.1, sc.2)],
       index := sc.0 + 1, line := sc.1, column := sc.2 + 1)
  }

  /** A string loop stopping at a quote at `e` yields a step as `StringConsumed` describes. */
  lemma OutcomeConsumed(s: Lexer, sc: (nat, int, int))
    requires s.index + 1 <= sc.0 < |s.source| && s.source[sc.0] == '"'
    requires forall k :: s.index + 1 <= k < sc.0 ==> s.source[k] != '"'
    ensures StringConsumed(s, StringOutcome(s, sc))
  {
    StringText(s.source, s.index + 1, sc.0);
    var r := StringOutcome(s, sc);
    assert r.index - 1 == sc.0;
  }

  /**
   * A string loop whose final line and column relate to the text as the
   * loop's own lemma states yields a step as `StringPlaced` describes.
   */
  lemma OutcomePlaced(s: Lexer, sc: (nat, int, int))
    requires s.index + 1 <= sc.0 < |s.source|
    requires var text := s.source[s.index + 1..sc.0];
      && sc.1 == s.line + (if |text| == 0 then 0 else NewlineCount(text[1..]))
      && ((forall k :: 0 < k < |text| ==> text[k] != '\n') ==> sc.2 == s.column + 1 + |text|)
      && (forall q :: LastNewlineAt(text, q) ==> sc.2 == |text| - q)
    ensures StringPlaced(s, StringOutcome(s, sc))
  {
    var r := StringOutcome(s, sc);
    assert s.source[s.index + 1..r.index - 1] == s.source[s.index + 1..sc.0];
  }

  /** The string scanner consumes a terminated literal as `StringConsumed` describes. */
  lemma StringExtent(s: Lexer)
    requires s.index < |s.source| && s.source[s.index] == '"'
    requires '"' in s.source[s.index + 1..]
    ensures ConsumeString(s).Ok? && StringConsumed(s, ConsumeString(s).value)
  {
    var sc := ScanString(s.source, s.index + 1, s.line, s.column + 1);
    StringResult(s);
    OutcomeConsumed(s, sc);
  }

  /** The string scanner places a terminated literal's token as `StringPlaced` describes. */
  lemma StringPlacement(s: Lexer)
    requires s.index < |s.source| && s.source[s.index] == '"'
    requires '"' in s.source[s.index + 1..]
    ensures ConsumeString(s).Ok? && StringPlaced(s, ConsumeString(s).value)
  {
    var sc := ScanString(s.source, s.index + 1, s.line, s.column + 1);
    StringResult(s);
    StringPositions(s.source, s.index + 1, s.line, s.column + 1);
    OutcomePlaced(s, sc);
  }

  /** The string scanner consumes a terminated literal as `StringStep` describes. */
  lemma StringShape(s: Lexer)
    requires s.index < |s.source| && s.source[s.index] == '"'
    requires '"' in s.source[s.index + 1..]
    ensures ConsumeString(s).Ok? && StringStep(s, ConsumeString(s).value)
  {
    StringExtent(s);
    StringPlacement(s);
  }

  /** The string scanner stops inside the source when a closing quote exists, and builds its token from the loop's result. */
  lemma StringResult(s: Lexer)
    requires s.index < |s.source| && s.source[s.index] == '"'
    requires '"' in s.source[s.index + 1..]
    ensures var sc := ScanString(s.source, s.index + 1, s.line, s.column + 1);
      && sc.0 < |s.source|
      && ConsumeString(s) == Ok(StringOutcome(s, sc))
  {
    var src, i0 := s.source, s.index + 1;
    ScanStopsAtQuote(src, i0, s.line, s.column + 1);
    var sc := ScanString(src, i0, s.line, s.column + 1);
    assert CharAt(src, sc.0) == '"';
    assert ConsumeString(s).Ok?;
  }

  /** The string loop stops before the end of the source when a quote lies ahead. */
  lemma ScanStopsAtQuote(source: string, i0: nat, line: int, column: int)
    requires i0 <= |source| && '"' in source[i0..]
    ensures ScanString(source, i0, line, column).0 < |source|
  {
    var j :| 0 <= j < |source[i0..]| && source[i0..][j] == '"';
    assert source[i0 + j] == '"';
  }

  /** The text between the quotes holds no quote and is followed by one. */
  lemma StringText(source: string, i0: nat, e: nat)
    requires i0 <= e < |source|
    requires forall k :: i0 <= k < e ==> source[k] != '"'
    ensures '"' !in source[i0..e]
  {
    assert forall k :: 0 <= k < e - i0 ==> source[i0..e][k] == source[i0 + k];
  }

  /** The string loop's final line and column, restated in terms of the token text. */
  lemma StringPositions(source: string, i0: nat, line: int, column: int)
    requires i0 <= |source|
    ensures var r := ScanString(source, i0, line, column);
      var text := source[i0..r.0];
      && r.1 == line + (if |text| == 0 then 0 else NewlineCount(text[1..]))
      && ((forall k :: 0 < k < |text| ==> text[k] != '\n') ==> r.2 == column + |text|)
      && (forall q :: LastNewlineAt(text, q) ==> r.2 == |text| - q)
  {
    var r := ScanString(source, i0, line, column);
    var text := source[i0..r.0];
    assert r.1 == line + (if |text| == 0 then 0 else NewlineCount(text[1..])) by {
      ScanStringLine(source, i0, line, column);
      TextLine(source, i0, r.0, line, r.1);
    }
    assert (forall k :: 0 < k < |text| ==> text[k] != '\n') ==> r.2 == column + |text| by {
      ScanStringColumn(source, i0, line, column);
      TextColumn(source, i0, r.0, column, r.2);
    }
    assert forall q :: LastNewlineAt(text, q) ==> r.2 == |text| - q by {
      ScanStringLastColumn(source, i0, line, column);
      TextLastColumn(source, i0, r.0, r.2);
    }
  }

  /** The loop's line, in terms of the text between `i0` and `e`. */
  lemma TextLine(source: string, i0: nat, e: nat, line: int, l: int)
    requires i0 <= e <= |source|
    requires l == line + (if i0 < e then NewlineCount(source[i0 + 1..e]) else 0)
    ensures var text := source[i0..e];
      l == line + (if |text| == 0 then 0 else NewlineCount(text[1..]))
  {
    if i0 < e {
      assert source[i0..e][1..] == source[i0 + 1..e];
    }
  }

  /** The loop's column without later newlines, in terms of the text between `i0` and `e`. */
  lemma TextColumn(source: string, i0: nat, e: nat, column: int, c: int)
    requires i0 <= e <= |source|
    requires (forall k :: i0 < k < e ==> source[k] != '\n') ==> c == column + (e - i0)
    ensures var text := source[i0..e];
      (forall k :: 0 < k < |text| ==> text[k] != '\n') ==> c == column + |text|
  {
    var text := source[i0..e];
    if forall k :: 0 < k < |text| ==> text[k] != '\n' {
      forall k | i0 < k < e
        ensures source[k] != '\n'
      {
        assert text[k - i0] == source[k];
      }
    }
  }

  /** The loop's column after a last newline, in terms of the text between `i0` and `e`. */
  lemma TextLastColumn(source: string, i0: nat, e: nat, c: int)
    requires i0 <= e <= |source|
    requires forall p :: i0 < p < e && source[p] == '\n' && (forall k :: p < k < e ==> source[k] != '\n') ==> c == e - p
    ensures forall q :: LastNewlineAt(source[i0..e], q) ==> c == |source[i0..e]| - q
  {
    forall q | LastNewlineAt(source[i0..e], q)
      ensures c == |source[i0..e]| - q
    {
      LastNewlineInSource(source, i0, e, q);
    }
  }

  /** A last newline of the text between `i0` and `e` is one of the source itself. */
  lemma LastNewlineInSource(source: string, i0: nat, e: nat, q: int)
    requires i0 <= e <= |source| && LastNewlineAt(source[i0..e], q)
    ensures i0 < i0 + q < e && source[i0 + q] == '\n'
    ensures forall k :: i0 + q < k < e ==> source[k] != '\n'
  {
    var text := source[i0..e];
    forall k | i0 + q < k < e
      ensures source[k] != '\n'
    {
      assert text[k - i0] == source[k];
    }
  }

  /** At a terminated string literal the step consumes it, as `StringStep` describes. */
  lemma ConsumeStringStep(s: Lexer)
    requires s.index < |s.source| && s.source[s.index] == '"'
    requires '"' in s.source[s.index + 1..]
    ensures ConsumeToken(s).Ok? && StringStep(s, ConsumeToken(s).value)
  {
    assert ConsumeToken(s) == ConsumeString(s);
    StringShape(s);
  }

  /**
   * The string loop checks each character only after stepping onto it, so a
   * newline right after the opening quote does not advance the line.
   */
  lemma StringLeadingNewlineUncounted()
    ensures var s := Lexer("\"\n\"", 0, 1, 0, [], 0);
      && ConsumeToken(s).Ok?
      && Last(ConsumeToken(s).value.tokens).text == "\n"
      && ConsumeToken(s).value.line == 1
  {
    var src := "\"\n\"";
    var s := Lexer(src, 0, 1, 0, [], 0);
    assert |src| == 3 && src[0] == '"' && src[1] == '\n' && src[2] == '"';
    assert ScanString(src, 2, 1, 2) == (2, 1, 2);
    assert CharAt(src, 2) == '"';
    assert ScanString(src, 1, 1, 1) == (2, 1, 2);
    assert src[1..2] == "\n";
    assert src[1..][1] == '"';
    StringResult(s);
    assert ConsumeToken(s) == ConsumeString(s);
  }

  /** Without a newline, `"ab"` at column 0 ends at the quote's column plus one plus its two characters. */
  lemma StringEndColumnPlain()
    ensures var s := Lexer("\"ab\"", 0, 1, 0, [], 0);
      ConsumeString(s).Ok? && Last(ConsumeString(s).value.tokens).colEnd == 3
  {
    var src := "\"ab\"";
    assert |src| == 4 && src[1] == 'a' && src[2] == 'b' && src[3] == '"';
    assert ScanString(src, 3, 1, 3) == (3, 1, 3);
    assert CharAt(src, 3) == '"';
    assert ScanString(src, 2, 1, 2) == (3, 1, 3);
    assert ScanString(src, 1, 1, 1) == (3, 1, 3);
  }

  /** After a newline, `"a\nb"` ends one column past the single character that follows it. */
  lemma StringEndColumnAfterNewline()
    ensures var s := Lexer("\"a\nb\"", 0, 1, 0, [], 0);
      ConsumeString(s).Ok? && Last(ConsumeString(s).value.tokens).colEnd == 2
  {
    var src := "\"a\nb\"";
    assert |src| == 5 && src[1] == 'a' && src[2] == '\n' && src[3] == 'b' && src[4] == '"';
    assert ScanString(src, 4, 2, 2) == (4, 2, 2);
    assert CharAt(src, 4) == '"';
    assert ScanString(src, 3, 2, 1) == (4, 2, 2);
    assert ScanString(src, 2, 2, 0) == (4, 2, 2);
    assert ScanString(src, 1, 1, 1) == (4, 2, 2);
  }
  // ---------------------------------------------------------------------
  // Skipped characters and the shape of one step

  /** A character that can begin a token: a quote, an operator character, a letter, `_` or a digit. */
  predicate StartsLexeme(c: char) {
    c == '"' || c in OneCharLexemes || IsIdentifierChar(c)
  }

  /**
   * A character that starts no lexeme is skipped: no token, the index moves
   * by exactly one, a newline moves to column 0 of the next line and any
   * other character moves one column right.
   */
  lemma ConsumeSkipped(s: Lexer)
    requires !StartsLexeme(s.Current())
    ensures ConsumeToken(s) == Ok(Skip(s))
    ensures ConsumeToken(s).value.tokens == s.tokens
    ensures ConsumeToken(s).value.index == s.index + 1
    ensures s.Current() == '\n' ==> ConsumeToken(s).value.line == s.line + 1 && ConsumeToken(s).value.column == 0
    ensures s.Current() != '\n' ==> ConsumeToken(s).value.line == s.line && ConsumeToken(s).value.column == s.column + 1
  {
    OperatorMaximalMunch(s.Current(), s.Next());
    assert OperatorAt(s.Current(), s.Next()) == None;
    assert KeywordAt(s) == None;
  }

  /** A successful step appends a token exactly when the current character starts a lexeme. */
  lemma TokenIffLexemeStart(s: Lexer)
    requires ConsumeToken(s).Ok?
    ensures |ConsumeToken(s).value.tokens| == |s.tokens| + 1 <==> StartsLexeme(s.Current())
    ensures |ConsumeToken(s).value.tokens| == |s.tokens| <==> !StartsLexeme(s.Current())
  {
    var c := s.Current();
    if c == '"' {
      ConsumeStringStep(s);
    } else if c in OneCharLexemes {
      OperatorMaximalMunch(c, s.Next());
      var m := LongestLexeme(c, s.Next()).value;
      ConsumeOperator(s, m);
    } else if IsIdentifierStartChar(c) {
      ConsumeWord(s);
    } else if IsDigit(c) {
      ConsumeNumberStep(s);
    } else {
      ConsumeSkipped(s);
    }
  }

  // ---------------------------------------------------------------------
  // Pulling tokens on demand

  /**
   * Pulling up to token `i` and then up to token `j >= i` is the same as
   * pulling up to `j` directly: the lexer's steps do not depend on how far
   * ahead it has been asked to look.
   */
  lemma {:induction false} FillInStages(s: Lexer, i: int, j: int)
    requires i <= j && Fill(s, j).Ok?
    ensures Fill(s, i).Ok? && Fill(Fill(s, i).value, j) == Fill(s, j)
    decreases |s.source| - s.index
  {
    if !s.Done() && i >= |s.tokens| {
      var s1 := ConsumeToken(s).value;
      FillInStages(s1, i, j);
    }
  }

  /**
   * The token at index `i` is the same whether it is requested first or
   * after the lexer has already been driven to token `j >= i`, and in the
   * latter case no further lexing happens.
   */
  lemma TokenIndependentOfLookahead(s: Lexer, i: int, j: int)
    requires 0 <= i <= j && Fill(s, j).Ok?
    ensures TokenAt(s, i).Ok?
    ensures TokenAt(Fill(s, j).value, i) == Ok((Fill(s, j).value, TokenAt(s, i).value.1))
  {
    FillInStages(s, i, j);
    var s1 := Fill(s, i).value;
    var s2 := Fill(s, j).value;
    assert Fill(s2, i) == Ok(s2);
    if i >= |s1.tokens| {
      assert s2 == s1;
    }
  }

  /** Asking again for a token already pulled returns it without lexing further. */
  lemma TokenAtStable(s: Lexer, i: int)
    requires TokenAt(s, i).Ok?
    ensures TokenAt(TokenAt(s, i).value.0, i) == TokenAt(s, i)
  {
  }

  /** Moving back after moving forward restores the token cursor and keeps every token pulled. */
  lemma RegressUndoesAdvance(s: Lexer)
    requires s.tokenIndex >= 0 && Advance(s).Ok?
    ensures Regress(Advance(s).value).tokenIndex == s.tokenIndex
    ensures s.tokens <= Regress(Advance(s).value).tokens
    ensures Regress(Advance(s).value).source == s.source
  {
  }

  /** After `Advance` the current token is available without lexing further. */
  lemma AdvanceThenCurrentToken(s: Lexer)
    requires Advance(s).Ok?
    ensures var r := Advance(s).value;
      TokenAt(r, r.tokenIndex) ==
        (if r.tokenIndex < 0 then Err(IndexOutOfRange(r.tokenIndex))
         else if r.tokenIndex < |r.tokens| then Ok((r, r.tokens[r.tokenIndex]))
         else Ok((r, Eof())))
  {
  }
}

=== FILE: lexer.dfy ===
/**
 * The on-demand lexer as an immutable state and pure state transitions.
 * `ConsumeToken` recognises one lexeme (or skips one character);
 * `TokenAt` and `Advance` pull tokens lazily until the requested one
 * exists or the source is exhausted.
 */
module Lexing {
  import opened Wrappers
  import opened Chars
  import opened Tokens
  import opened Operators

  /** The only ways lexing fails. */
  datatype LexError =
    | UnterminatedString           // a `"` with no closing `"` after it
    | IndexOutOfRange(index: int)  // `token_at` with a negative index

  /**
   * The lexer's state: the source text, the index of the current character,
   * the current line and column, the tokens recognised so far and the index
   * of the parser's current token.
   */
  datatype Lexer = Lexer(
    source: string,
    index: nat,
    line: int,
    column: int,
    tokens: seq<Token>,
    tokenIndex: int)
  {
    /** The source is exhausted. */
    predicate Done() {
      index >= |source|
    }

    /** The character `k` places after the current one (NUL past the end). */
    function Peek(k: nat): char {
      CharAt(source, index + k)
    }

    /** The current character. */
    function Current(): char {
      Peek(0)
    }

    /** The character after the current one. */
    function Next(): char {
      Peek(1)
    }
  }

  /** `s'` is `s` with the same source and token cursor, the same tokens and possibly more. */
  ghost predicate Extends(s: Lexer, s': Lexer) {
    && s'.source == s.source
    && s'.tokenIndex == s.tokenIndex
    && s'.index >= s.index
    && s.tokens <= s'.tokens
  }

  /**
   * Appends a token of kind `kind` covering `width` characters of the
   * current line and moves past them.
   */
  function PushToken(s: Lexer, kind: TokenType, width: nat): (r: Lexer)
    ensures r.source == s.source && r.tokenIndex == s.tokenIndex
    ensures |r.tokens| == |s.tokens| + 1 && r.tokens[..|s.tokens|] == s.tokens
    ensures r.tokens[|s.tokens|].kind == kind && r.tokens[|s.tokens|].text == ""
    ensures r.tokens[|s.tokens|].lineStart == r.tokens[|s.tokens|].lineEnd == s.line
    ensures r.tokens[|s.tokens|].colStart == s.column
    ensures r.tokens[|s.tokens|].colEnd - r.tokens[|s.tokens|].colStart == width
    ensures r.index == s.index + width && r.column == s.column + width && r.line == s.line
  {
    var t := Token(kind, "", s.line, s.column, s.line, s.column + width);
    s.(tokens := s.tokens + [t], index := s.index + width, column := s.column + width)
  }

  /**
   * The body of the string loop: from index `i` (the first character after
   * the opening quote, or a later one) advance until the end of the source
   * or a `"`.  After each step the line and column are updated from the
   * character just reached: a newline there starts a new line at column 0,
   * anything else adds one column.  Yields the stop index, line and column.
   */
  function ScanString(source: string, i: nat, line: int, column: int): (r: (nat, int, int))
    requires i <= |source|
    ensures i <= r.0 <= |source|
    ensures forall k :: i <= k < r.0 ==> source[k] != '"'
    ensures r.0 == |source| || source[r.0] == '"'
    decreases |source| - i
  {
    if i < |source| && source[i] != '"' then
      if CharAt(source, i + 1) == '\n' then ScanString(source, i + 1, line + 1, 0)
      else ScanString(source, i + 1, line, column + 1)
    else (i, line, column)
  }

  /**
   * A string literal, with the current character the opening quote: the
   * token's text is everything up to the closing quote, which must exist.
   */
  function ConsumeString(s: Lexer): (r: Result<Lexer, LexError>)
    requires s.index < |s.source| && s.source[s.index] == '"'
    ensures r.Err? <==> '"' !in s.source[s.index + 1..]
    ensures r.Ok? ==> Extends(s, r.value) && |r.value.tokens| == |s.tokens| + 1
    ensures r.Ok? ==> r.value.index <= |s.source|
  {
    var i0 := s.index + 1;
    var c0 := s.column + 1;
    var l0 := s.line;
    var (end, line, column) := ScanString(s.source, i0, l0, c0);
    if CharAt(s.source, end) != '"' then
      assert forall k :: 0 <= k < |s.source[i0..]| ==> s.source[i0..][k] == s.source[i0 + k];
      Err(UnterminatedString)
    else
      assert s.source[end] == s.source[i0..][end - i0];
      var text := s.source[i0..end];
      var t := Token(String, text, l0, c0, line, column);
      Ok(s.(tokens := s.tokens + [t], index := end + 1, line := line, column := column + 1))
  }

  /**
   * The keyword tests of the default branch: `fn`, `for`, `if` or `return`
   * at the current index, not followed by an identifier character.
   */
  function KeywordAt(s: Lexer): (r: Option<Munch>)
    ensures r.Some? ==> s.index + r.value.width <= |s.source|
    ensures r.Some? ==> !IsIdentifierChar(s.Peek(r.value.width))
  {
    if s.Peek(0) == 'f' then
      if s.Peek(1) == 'n' then
        if !IsIdentifierChar(s.Peek(2)) then Some(Munch(KeywordFn, 2)) else None
      else if s.Peek(1) == 'o' then
        if s.Peek(2) == 'r' && !IsIdentifierChar(s.Peek(3)) then Some(Munch(Keyword, 3)) else None
      else None
    else if s.Peek(0) == 'i' then
      if s.Peek(1) == 'f' && !IsIdentifierChar(s.Peek(2)) then Some(Munch(Keyword, 2)) else None
    else if s.Peek(0) == 'r' then
      if && s.Peek(1) == 'e' && s.Peek(2) == 't' && s.Peek(3) == 'u'
         && s.Peek(4) == 'r' && s.Peek(5) == 'n' && !IsIdentifierChar(s.Peek(6))
      then Some(Munch(Keyword, 6))
      else None
    else None
  }

  /**
   * An identifier: the current character starts one; the token's text runs
   * while identifier characters follow.
   */
  function ConsumeIdentifier(s: Lexer): (r: Lexer)
    requires s.index < |s.source| && IsIdentifierStartChar(s.source[s.index])
    ensures Extends(s, r) && |r.tokens| == |s.tokens| + 1
    ensures s.index < r.index <= |s.source|
  {
    var end := RunEnd(s.source, s.index + 1, IsIdentifierChar);
    var text := s.source[s.index..end];
    var column := s.column + |text|;
    var t := Token(Identifier, text, s.line, column - |text|, s.line, column);
    s.(tokens := s.tokens + [t], index := end, column := column)
  }

  /**
   * Where the number loops stop: the end of the integral part (the `.`, if
   * one follows the first digits) and the end of the number.
   */
  function NumberEnds(s: Lexer): (pe: (nat, nat))
    requires s.index < |s.source|
    ensures s.index < pe.0 <= pe.1 <= |s.source|
  {
    var integral := RunEnd(s.source, s.index + 1, IsDigit);
    var dot := if CharAt(s.source, integral) == '.' then integral + 1 else integral;
    (integral, RunEnd(s.source, dot, IsDigit))
  }

  /**
   * A number: digits, then one `.` if the next character is one, then
   * digits again; the column moves in step with the index.
   */
  function ConsumeNumber(s: Lexer): (r: Lexer)
    requires s.index < |s.source| && IsDigit(s.source[s.index])
    ensures Extends(s, r) && |r.tokens| == |s.tokens| + 1
    ensures s.index < r.index <= |s.source|
  {
    var end := NumberEnds(s).1;
    var text := s.source[s.index..end];
    var column := s.column + (end - s.index);
    var t := Token(Number, text, s.line, column - |text|, s.line, column);
    s.(tokens := s.tokens + [t], index := end, column := column)
  }

  /**
   * A character that starts no lexeme: no token; a newline moves to column 0
   * of the next line, anything else moves one column right.
   */
  function Skip(s: Lexer): (r: Lexer)
    ensures r.source == s.source && r.tokens == s.tokens && r.tokenIndex == s.tokenIndex
    ensures r.index == s.index + 1
    ensures s.Current() == '\n' ==> r.line == s.line + 1 && r.column == 0
    ensures s.Current() != '\n' ==> r.line == s.line && r.column == s.column + 1
  {
    if s.Current() == '\n' then s.(line := s.line + 1, column := 0, index := s.index + 1)
    else s.(column := s.column + 1, index := s.index + 1)
  }

  /** The `default:` branch: keywords, then identifiers, then numbers, else skip. */
  function ConsumeWordOrSkip(s: Lexer): (r: Lexer)
    ensures Extends(s, r) && |r.tokens| <= |s.tokens| + 1
    ensures r.index > s.index
    ensures s.index < |s.source| ==> r.index <= |s.source|
  {
    match KeywordAt(s)
    case Some(m) =>
      PushToken(s, m.kind, m.width)
    case None =>
      if IsIdentifierStartChar(s.Current()) then ConsumeIdentifier(s)
      else if IsDigit(s.Current()) then ConsumeNumber(s)
      else Skip(s)
  }

  /**
   * Recognises one lexeme at the current index, or skips one character.
   * Every successful step moves strictly forward and adds at most one token;
   * the only failure is a string literal with no closing quote.
   */
  function ConsumeToken(s: Lexer): (r: Result<Lexer, LexError>)
    ensures r.Err? <==> s.index < |s.source| && s.source[s.index] == '"' && '"' !in s.source[s.index + 1..]
    ensures r.Err? ==> r.error == UnterminatedString
    ensures r.Ok? ==> Extends(s, r.value) && |r.value.tokens| <= |s.tokens| + 1
    ensures r.Ok? ==> r.value.index > s.index
    ensures r.Ok? && s.index < |s.source| ==> r.value.index <= |s.source|
  {
    if s.Current() == '"' then ConsumeString(s)
    else match OperatorAt(s.Current(), s.Next())
      case Some(m) => Ok(PushToken(s, m.kind, m.width))
      case None => Ok(ConsumeWordOrSkip(s))
  }
  /**
   * The pulling loop shared by `token_at` and `advance`: while the source is
   * not exhausted and token `i` does not exist yet, consume another lexeme.
   * Stops as soon as token `i` exists, so it never lexes further ahead than
   * needed.
   */
  function Fill(s: Lexer, i: int): (r: Result<Lexer, LexError>)
    ensures r.Ok? ==> Extends(s, r.value)
    ensures r.Ok? && s.index <= |s.source| ==> r.value.index <= |s.source|
    ensures r.Ok? ==> r.value.Done() || i < |r.value.tokens|
    ensures r.Ok? && |s.tokens| <= i + 1 ==> |r.value.tokens| <= i + 1
    ensures s.Done() || i < |s.tokens| ==> r == Ok(s)
    ensures r.Err? ==> r.error == UnterminatedString
    ensures r.Err? ==> s.index < |s.source| && '"' in s.source[s.index..]
    decreases |s.source| - s.index
  {
    if !s.Done() && i >= |s.tokens| then
      match ConsumeToken(s)
      case Ok(s1) => Fill(s1, i)
      case Err(e) => Err(e)
    else Ok(s)
  }

  /**
   * Token `i`, lexing on demand: the recognised token when there is one,
   * the END sentinel once the source is exhausted without reaching it.
   * A negative index is out of range.
   */
  function TokenAt(s: Lexer, i: int): (r: Result<(Lexer, Token), LexError>)
    ensures i < 0 ==> r == Err(IndexOutOfRange(i))
    ensures r.Ok? ==> Extends(s, r.value.0)
    ensures r.Ok? && 0 <= i < |r.value.0.tokens| ==> r.value.1 == r.value.0.tokens[i]
    ensures r.Ok? && i >= |r.value.0.tokens| ==> r.value.0.Done() && r.value.1 == Eof()
    ensures r.Err? && i >= 0 ==> r.error == UnterminatedString
    ensures r.Err? && i >= 0 ==> s.index < |s.source| && '"' in s.source[s.index..]
    ensures 0 <= i < |s.tokens| ==> r == Ok((s, s.tokens[i]))
    ensures i >= |s.tokens| && s.Done() ==> r == Ok((s, Eof()))
  {
    var s1 :- Fill(s, i);
    if s1.Done() && i >= |s1.tokens| then Ok((s1, Eof()))
    else if i < 0 then Err(IndexOutOfRange(i))
    else Ok((s1, s1.tokens[i]))
  }

  /** Moves the token cursor forward one, lexing until that token exists or the source is exhausted. */
  function Advance(s: Lexer): (r: Result<Lexer, LexError>)
    ensures r.Ok? ==> r.value.tokenIndex == s.tokenIndex + 1
    ensures r.Ok? ==> r.value.source == s.source && s.tokens <= r.value.tokens
    ensures r.Ok? ==> r.value.Done() || r.value.tokenIndex < |r.value.tokens|
    ensures r.Err? ==> r.error == UnterminatedString
    ensures r.Err? ==> s.index < |s.source| && '"' in s.source[s.index..]
    ensures s.Done() || s.tokenIndex + 1 < |s.tokens| ==> r == Ok(s.(tokenIndex := s.tokenIndex + 1))
  {
    var s1 := s.(tokenIndex := s.tokenIndex + 1);
    Fill(s1, s1.tokenIndex)
  }

  /** Moves the token cursor back one; the cursor must not be at the first token. */
  function Regress(s: Lexer): (r: Lexer)
    requires s.tokenIndex > 0
    ensures r.tokenIndex == s.tokenIndex - 1 && r.tokenIndex >= 0
    ensures r.source == s.source && r.index == s.index && r.tokens == s.tokens
    ensures r.line == s.line && r.column == s.column
  {
    s.(tokenIndex := s.tokenIndex - 1)
  }
}

=== FILE: operators.dfy ===
/**
 * Operators and punctuation.  `OperatorAt` follows the lexer's `switch` on
 * the current and next character; `TwoCharLexemes` and `OneCharLexemes` list
 * every operator spelling independently, and `OperatorMaximalMunch` proves
 * that the switch picks the longest listed spelling.
 */
module Operators {
  import opened Wrappers
  import opened Tokens

  /**
   * The operator the lexer recognises when the current character is `c` and
   * the next one is `d`, with its width; None when `c` starts no operator.
   */
  function OperatorAt(c: char, d: char): (r: Option<Munch>)
    ensures r.Some? ==> 1 <= r.value.width <= 2 && c != '\0' && c != '"'
    ensures r.Some? && r.value.width == 2 ==> d == '=' || d == c
  {
    match c
    case '+' =>
      if d == '+' then Some(Munch(Increment, 2))
      else if d == '=' then Some(Munch(AddTo, 2))
      else Some(Munch(Add, 1))
    case '-' =>
      if d == '-' then Some(Munch(Decrement, 2))
      else if d == '=' then Some(Munch(SubTo, 2))
      else Some(Munch(Sub, 1))
    case '*' =>
      if d == '=' then Some(Munch(MulTo, 2)) else Some(Munch(Mul, 1))
    case '/' =>
      if d == '=' then Some(Munch(DivTo, 2)) else Some(Munch(Div, 1))
    case '&' =>
      if d == '&' then Some(Munch(LogicAnd, 2))
      else if d == '=' then Some(Munch(AndTo, 2))
      else Some(Munch(And, 1))
    case '|' =>
      if d == '|' then Some(Munch(LogicIor, 2))
      else if d == '=' then Some(Munch(IorTo, 2))
      else Some(Munch(Ior, 1))
    case '^' =>
      if d == '=' then Some(Munch(XorTo, 2)) else Some(Munch(Xor, 1))
    case ':' =>
      if d == '=' then Some(Munch(DeclareAssign, 2)) else Some(Munch(Declare, 1))
    case '=' =>
      if d == '=' then Some(Munch(Equal, 2)) else Some(Munch(Assign, 1))
    case '<' =>
      if d == '=' then Some(Munch(Lte, 2)) else Some(Munch(Lt, 1))
    case '>' =>
      if d == '=' then Some(Munch(Gte, 2)) else Some(Munch(Gt, 1))
    case '!' =>
      if d == '=' then Some(Munch(NotEqual, 2)) else Some(Munch(LogicCompl, 1))
    case '(' => Some(Munch(ParenOpen, 1))
    case ')' => Some(Munch(ParenClose, 1))
    case '{' => Some(Munch(BraceOpen, 1))
    case '}' => Some(Munch(BraceClose, 1))
    case '[' => Some(Munch(BracketOpen, 1))
    case ']' => Some(Munch(BracketClose, 1))
    case '~' => Some(Munch(Compl, 1))
    case ';' => Some(Munch(Semicolon, 1))
    case '.' => Some(Munch(Dot, 1))
    case ',' => Some(Munch(Comma, 1))
    case _ => None
  }

  /** Every two-character operator spelling, as its pair of characters, and the kind it denotes. */
  const TwoCharLexemes: map<(char, char), TokenType> := map[
    ('+', '+') := Increment, ('+', '=') := AddTo,
    ('-', '-') := Decrement, ('-', '=') := SubTo,
    ('*', '=') := MulTo, ('/', '=') := DivTo,
    ('&', '&') := LogicAnd, ('&', '=') := AndTo,
    ('|', '|') := LogicIor, ('|', '=') := IorTo,
    ('^', '=') := XorTo, (':', '=') := DeclareAssign,
    ('=', '=') := Equal, ('<', '=') := Lte,
    ('>', '=') := Gte, ('!', '=') := NotEqual
  ]

  /** Every one-character operator or punctuation spelling and the kind it denotes. */
  const OneCharLexemes: map<char, TokenType> := map[
    '+' := Add, '-' := Sub, '*' := Mul, '/' := Div,
    '&' := And, '|' := Ior, '^' := Xor, ':' := Declare,
    '=' := Assign, '<' := Lt, '>' := Gt, '!' := LogicCompl,
    '(' := ParenOpen, ')' := ParenClose,
    '{' := BraceOpen, '}' := BraceClose,
    '[' := BracketOpen, ']' := BracketClose,
    '~' := Compl, ';' := Semicolon, '.' := Dot, ',' := Comma
  ]

  /**
   * Maximal munch over the operator spellings: the two-character spelling
   * `c d` when it is listed, otherwise the one-character spelling `c` when
   * it is listed, otherwise nothing.
   */
  function LongestLexeme(c: char, d: char): Option<Munch> {
    if (c, d) in TwoCharLexemes then Some(Munch(TwoCharLexemes[(c, d)], 2))
    else if c in OneCharLexemes then Some(Munch(OneCharLexemes[c], 1))
    else None
  }

  /**
   * The lexer's operator switch is exactly maximal munch over the operator
   * spellings; in particular `^^` is not an operator, so `^` followed by `^`
   * is a lone XOR.
   */
  lemma OperatorMaximalMunch(c: char, d: char)
    ensures OperatorAt(c, d) == LongestLexeme(c, d)
  {
    if c == '+' {
      AddMunch(d);
    } else if c == '-' {
      SubMunch(d);
    } else if c == '&' || c == '|' {
      AndIorMunch(c, d);
    } else if c == '*' || c == '/' {
      MulDivMunch(c, d);
    } else if c == '^' || c == ':' {
      XorDeclareMunch(c, d);
    } else if c == '=' || c == '<' {
      AssignLtMunch(c, d);
    } else if c == '>' || c == '!' {
      GtNotMunch(c, d);
    } else {
      PunctuationMunch(c, d);
    }
  }

  /** Maximal munch at `+`, which doubles or takes `=`. */
  lemma AddMunch(d: char)
    ensures OperatorAt('+', d) == LongestLexeme('+', d)
  {
  }

  /** Maximal munch at `-`, which doubles or takes `=`. */
  lemma SubMunch(d: char)
    ensures OperatorAt('-', d) == LongestLexeme('-', d)
  {
  }

  /** Maximal munch at `&` or `|`, which double or take `=`. */
  lemma AndIorMunch(c: char, d: char)
    requires c == '&' || c == '|'
    ensures OperatorAt(c, d) == LongestLexeme(c, d)
  {
  }

  /** Maximal munch at `*` or `/`. */
  lemma MulDivMunch(c: char, d: char)
    requires c == '*' || c == '/'
    ensures OperatorAt(c, d) == LongestLexeme(c, d)
  {
  }

  /** Maximal munch at `^` or `:`. */
  lemma XorDeclareMunch(c: char, d: char)
    requires c == '^' || c == ':'
    ensures OperatorAt(c, d) == LongestLexeme(c, d)
  {
  }

  /** Maximal munch at `=` or `<`. */
  lemma AssignLtMunch(c: char, d: char)
    requires c == '=' || c == '<'
    ensures OperatorAt(c, d) == LongestLexeme(c, d)
  {
  }

  /** Maximal munch at `>` or `!`. */
  lemma GtNotMunch(c: char, d: char)
    requires c == '>' || c == '!'
    ensures OperatorAt(c, d) == LongestLexeme(c, d)
  {
  }

  /** Maximal munch for punctuation, and for characters that start no operator. */
  lemma PunctuationMunch(c: char, d: char)
    requires c !in {'+', '-', '&', '|', '*', '/', '^', ':', '=', '<', '>', '!'}
    ensures OperatorAt(c, d) == LongestLexeme(c, d)
  {
  }
}

=== FILE: tokens.dfy ===
/** Token kinds and tokens produced by the lexer. */
module Tokens {

  /** The token kinds the lexer emits. */
  datatype TokenType =
    | Increment | AddTo | Add
    | Decrement | SubTo | Sub
    | MulTo | Mul
    | DivTo | Div
    | LogicAnd | AndTo | And
    | LogicIor | IorTo | Ior
    | XorTo | Xor
    | DeclareAssign | Declare
    | Equal | Assign
    | Lte | Lt
    | Gte | Gt
    | NotEqual | LogicCompl
    | ParenOpen | ParenClose
    | BraceOpen | BraceClose
    | BracketOpen | BracketClose
    | Compl | Semicolon | Dot | Comma
    | String | Number | Identifier
    | KeywordFn | Keyword
    | End

  /**
   * A token: its kind, its text (empty for operators and keywords), and the
   * line and column where it starts and ends.
   */
  datatype Token = Token(
    kind: TokenType,
    text: string,
    lineStart: int, colStart: int,
    lineEnd: int, colEnd: int)

  /** A token kind paired with the number of source characters it covers. */
  datatype Munch = Munch(kind: TokenType, width: nat)

  /** The sentinel returned once the source is exhausted. */
  function Eof(): (t: Token)
    ensures t.kind == End && t.text == "(EOF)"
    ensures t.lineStart == t.colStart == t.lineEnd == t.colEnd == -1
  {
    Token(End, "(EOF)", -1, -1, -1, -1)
  }
}

=== FILE: wrappers.dfy ===
/** The `Option` and `Result` types the lexer model returns: a missing value, and a value or a lexing error. */
module Wrappers {

  /** An optional value. */
  datatype Option<+T> = None | Some(value: T)

  /** The outcome of an operation that can fail with an error of type E. */
  datatype Result<+T, +E> = Ok(value: T) | Err(error: E) {
    predicate IsFailure() {
      Err?
    }

    function PropagateFailure<U>(): Result<U, E>
      requires Err?
    {
      Err(error)
    }

    function Extract(): T
      requires Ok?
    {
      value
    }
  }
}
